=== FILE: README.md ===
# Phone-number lookup: the per-number aggregation, modelled in Dafny

The repository validates phone numbers by combining three sources: a local
numbering-plan library (`phonenumbers`), the NumVerify carrier API and the
Twilio Lookup API. `validate_number` seeds one result record with defaults
and runs the three sources in a fixed order. Each source either fills its own
fields or appends one diagnostic string to `errors`, and no failure stops a
later source. `bulk_validate` applies it to the trimmed, non-blank entries of
a table's first column. When the table cannot be read, it returns a single
error record instead. `export_results_to_csv` turns the records into rows.

This project models that logic as pure functions over immutable datatypes:

- `wrappers.dfy` (`Wrappers`): `Option`, Python's `None`/value, with `GetOr`
  for `dict.get(key, default)`.
- `text.dfy` (`Text`): `str.strip()` with Python's exact whitespace set,
  `str.replace(c, '')`, and `sep.join(...)`.
- `sources.dfy` (`Sources`): the library outcome as an oracle value, the
  NumVerify request/response shaping of `_call_numverify_api`, and the Twilio
  number normalisation and result shaping of `_call_twilio_lookup`.
- `validator.dfy` (`Validator`): the result record, the three steps, their
  merge, and `ValidateNumber`. That function reads its configuration from an
  injected `Config` and its outside world from an injected `Services` record
  of oracle functions.
- `bulk.dfy` (`Bulk`): the filter loop of `bulk_validate` and its read-failure
  fallback.
- `export.dfy` (`Export`): the row mapping of `export_results_to_csv`.

The model follows the code in several places:

- NumVerify: a lookup helper that returns `None` adds no diagnostic. This
  covers a failed request and a body whose `success` flag is cleared.
  Only an exception that escapes the helper, i.e. one that is not a
  `RequestException`, adds `'NumVerify API error: ...'`.
- Twilio: `_call_twilio_lookup` catches every exception. So
  `'Twilio API error: ...'` (app/utils.py:81-82) can never be produced by
  the composed validator. `Merge` keeps that branch and `ValidateNumber`
  proves that it is unreachable.
- The fraud-risk and disposable values are the constant placeholders
  `'Low'` and `False`.

Two further points about the behaviour modelled:

- Bulk validation skips entries that are blank after trimming. In the code
  these are strings produced by pandas' `astype(str)`, and an empty cell
  becomes the non-blank string `'nan'`, which is validated. The model starts
  from the already-converted strings.
- Validating the same number twice with the same services gives the same
  record, because every member is a pure function. No lemma states this.

## Model

| member | source | states |
|---|---|---|
| Text.StripSpec | app/utils.py:156-157 | `strip()` yields the shortest slice holding every non-whitespace character, with non-whitespace ends; it is empty exactly when the entry is all whitespace |
| Text.StripIdempotent | app/utils.py:156-157 | stripping an already stripped entry changes nothing |
| Text.RemoveAll | app/utils.py:118 | `replace(c, '')` leaves no `c`, keeps the count of every other character, and is the identity when `c` is absent |
| Text.Join | app/utils.py:192 | joining no errors gives the empty cell and joining one error gives that error alone; `Export.SplitJoin` and `Export.JoinSplit` pin down the cell for longer lists |
| Text.RemoveAllAppend | app/utils.py:118 | removal distributes over concatenation, so surviving characters keep their order |
| Sources.CallNumVerify | app/utils.py:88-110 | the request carries the key and the raw number with `format=1`; data comes back exactly when the body's success flag is set; a request failure or cleared flag gives `None`; only other exceptions propagate |
| Sources.StripSeparators | app/utils.py:118 | no spaces or hyphens remain; all other characters are kept with their counts |
| Sources.StripSeparatorsAppend | app/utils.py:118 | separator removal distributes over concatenation, so the surviving characters keep their order |
| Sources.TwilioFormat | app/utils.py:117-120 | the number sent to Twilio starts with `'+'`, has no spaces or hyphens, ends with the separator-free input, and is exactly one character longer than that input when it did not start with `'+'`, and equal in length otherwise, so it is that input with a single `'+'` put in front when one is missing |
| Sources.TwilioFormatIdempotent | app/utils.py:117-120 | normalising twice equals normalising once |
| Sources.CarrierType | app/utils.py:125 | the line type is the carrier's `type` entry, or `'Unknown'` when the carrier is missing or lacks it |
| Sources.CallTwilio | app/utils.py:112-132 | the helper never raises; it returns data exactly when the lookup of the normalised number succeeds, with fraud risk `'Low'` and disposable `False` |
| Validator.DiagnosticOrigins | app/utils.py:51-84 | each diagnostic text is attributed to the source that writes it; the "not configured" and "API error" texts of a source differ |
| Validator.Seed | app/utils.py:28-40 | the seeded record holds the input, no errors, both validity flags false and all seven optional fields `None` |
| Validator.LibraryDiagnostics | app/utils.py:42-54 | the library step contributes one diagnostic exactly when parsing fails or the number is invalid |
| Validator.NumVerifyDiagnostics | app/utils.py:57-68 | the NumVerify step contributes one diagnostic exactly when it is not configured or its helper raised |
| Validator.TwilioDiagnostics | app/utils.py:71-84 | the Twilio step contributes one diagnostic exactly when it is not configured or its helper raised |
| Validator.LibraryStep | app/utils.py:42-54 | the library step changes only the formatted number, region, validity and errors |
| Validator.NumVerifyStep | app/utils.py:56-68 | the NumVerify step changes only its validity, carrier, location and errors |
| Validator.TwilioStep | app/utils.py:70-84 | the Twilio step changes only line type, fraud risk, disposable and errors |
| Validator.Location | app/utils.py:64 | the location cell is the country name (or `'Unknown'`), then `', '`, then the location (or `'Unknown'`); `'Unknown, Unknown'` when the body has neither |
| Validator.Merge | app/utils.py:28-51 | `original_number` is the input; `valid_lib` holds exactly when the number parses and is valid, and then the formatted number and region are set, otherwise both stay `None` |
| Validator.MergeLibraryFirst | app/utils.py:42-54 | a library diagnostic (parse exception text or the invalid-format message) is `errors[0]`; a valid number adds no library entry |
| Validator.MergeNumVerifyFields | app/utils.py:57-68 | NumVerify fields come from the returned body (`valid` default false, carrier and location parts default `'Unknown'`) and keep their defaults otherwise |
| Validator.MergeTwilioFields | app/utils.py:71-84 | Twilio fields come from the helper's result and stay `None` otherwise |
| Validator.MergeErrors | app/utils.py:42-86 | one entry per reporting source, in the order library, NumVerify, Twilio, none unattributed, hence at most three |
| Validator.MergeRemoteDiagnostics | app/utils.py:56-84 | a remote source's entry is its "not configured" message when skipped and its exception text when the helper raised; the "not configured" message appears exactly when the source is skipped |
| Validator.MergeIndependent | app/utils.py:42-86 | the library outcome does not affect the remote sources' fields or diagnostics: no failing step stops a later one |
| Validator.NumVerifySource | app/utils.py:57-60 | NumVerify is called exactly when the key is set and non-empty, and the reply is what the NumVerify helper returns for that key and the raw number |
| Validator.TwilioSource | app/utils.py:71-76 | Twilio is called exactly when both SID and token are set and non-empty; the reply is what the Twilio helper returns for them, and it never raises |
| Validator.ValidateNumber | app/utils.py:18-86 | for any configuration: the "not configured" messages appear exactly when credentials are missing, whatever the library says; missing credentials leave that source's fields at their defaults; a successful NumVerify body sets validity, carrier and location; the formatted number and region are set exactly when the library finds the number valid; a configured NumVerify call adds an entry exactly when an exception escapes its helper, and that entry is `'NumVerify API error: '` plus its text; any NumVerify outcome other than a successful body leaves validity false and carrier and location unset; a successful Twilio lookup sets the carrier type, `'Low'` and `False`, and a failed one leaves all three unset; no Twilio API error entry ever appears; at most three entries |
| Bulk.Kept | app/utils.py:155-158 | at most one kept entry per input entry, none of them empty |
| Bulk.KeptAppend | app/utils.py:155-158 | filtering works entry by entry: the kept entries of a concatenation are the concatenation of the kept entries |
| Bulk.KeptSingle | app/utils.py:156-157 | a blank entry produces nothing; any other produces its trimmed form |
| Bulk.KeptTrimmed | app/utils.py:156-157 | every kept entry is already trimmed |
| Bulk.KeptPosition | app/utils.py:155-158 | every non-blank entry appears, trimmed, after the entries kept before it, so nothing is dropped and order is kept |
| Bulk.KeptFromEntries | app/utils.py:155-158 | every kept entry is the trimmed form of some input entry |
| Bulk.KeptEmpty | app/utils.py:155-158 | no records come out exactly when every entry is blank |
| Bulk.BulkValidate | app/utils.py:144-164 | an unreadable table gives one record, `'Error'` with the single `'File processing error: ...'` entry; otherwise one validation of each kept (trimmed, non-blank) entry, in input order |
| Bulk.KeptExample | app/utils.py:155-158 | `["+1234567890", "", "  ", "+44123456789"]` keeps exactly the two numbers, in order |
| Export.JoinSplit | app/utils.py:192 | re-joining the pieces of any cell gives the cell back, so the join never adds a leading or trailing separator; with `Export.SplitJoin` this fixes the joined text |
| Export.SplitJoin | app/utils.py:192 | the `'; '`-joined errors cell splits back into the original list when no entry is empty or contains `';'` |
| Export.ExportRow | app/utils.py:181-193 | the row keeps the record's number and its recoverable errors; the fallback record's missing keys become `''` in the six text columns and `False` in the three flag columns |
| Export.ExportRows | app/utils.py:179-193 | one row per result, in the same order, each with that result's number and errors |

## Left out

- The numbering-plan library (`phonenumbers.parse`, `is_valid_number`, `format_number`, `region_code_for_number`) is a foreign library. It is the oracle `Services.library` returning a `LibOutcome`.
- The NumVerify HTTP exchange (`requests.get`, timeout, `raise_for_status`, JSON decoding) is network I/O. It is the oracle `Services.numVerify` from the request to an `HttpOutcome`.
- The Twilio client construction and `fetch()` are network I/O. They are the oracle `Services.twilio` from the credentials and normalised number to a `FetchOutcome`.
- `os.getenv` is process state. The three variables are the injected `Config`.
- Logging has no effect on results. Exception texts are opaque strings carried in the model.
- pandas reading and `astype(str)` are a foreign library. `TableRead` is the already-converted first column, or the exception that stopped the read.
- `export_results_to_csv`'s DataFrame construction, `os.path.join`, the file write and the re-raise of its errors are file I/O.
- JSON value types are not modelled. NumVerify payload fields are optional booleans and strings, so a JSON `null` or a non-boolean `valid` is not represented. The same holds for a `null` Twilio carrier `type`.
- Export.ExportRow: for a validated record the contract states only the number column and the errors column. The other columns are copied field for field, and only the body says so.
- Export.ExportRows: the contract ties only the number and errors columns of each row to its result, for the same reason as `Export.ExportRow`.
- Export.SplitErrors is not in the source. It exists only as the inverse of the `'; '` join.
- The web routes, forms, app factory, configuration class and entry script have no logic of their own beyond calling these functions.

=== FILE: bulk.dfy ===
/** `bulk_validate`: validates the first column of an uploaded table entry by
    entry, skipping blank entries, and falls back to a single error record
    when the table cannot be read. */
module Bulk {
  import opened Text
  import opened Validator

  /** The first column of the table after reading and string conversion, or
      the exception that stopped the read. */
  datatype TableRead = Column(entries: seq<string>) | Unreadable(message: string)

  /** One element of the returned list: a full validation result, or the
      two-key fallback dictionary of a failed read. */
  datatype Record =
    | Validated(result: ValidationResult)
    | FileError(originalNumber: string, errors: seq<string>)

  const FileErrorNumber := "Error"
  const FileErrorPrefix := "File processing error: "

  /** The trimmed forms of the non-blank entries, in input order. */
  function Kept(entries: seq<string>): (ks: seq<string>)
    ensures |ks| <= |entries|
    ensures forall k :: 0 <= k < |ks| ==> ks[k] != []
  {
    if entries == [] then []
    else
      var t := Strip(entries[0]);
      (if t == [] then [] else [t]) + Kept(entries[1..])
  }

  /** Filtering works entry by entry. */
  lemma {:induction false} KeptAppend(a: seq<string>, b: seq<string>)
    ensures Kept(a + b) == Kept(a) + Kept(b)
  {
    if a == [] {
      assert a + b == b;
    } else {
      var ab := a + b;
      var head := if Strip(a[0]) == [] then [] else [Strip(a[0])];
      assert ab[0] == a[0];
      assert ab[1..] == a[1..] + b;
      assert Kept(ab) == head + Kept(ab[1..]);
      KeptAppend(a[1..], b);
      assert Kept(a) == head + Kept(a[1..]);
    }
  }

  /** Blank entries are exactly the ones that produce nothing. */
  lemma KeptSingle(e: string)
    ensures Kept([e]) == (if Strip(e) == [] then [] else [Strip(e)])
  {
  }

  /** Every non-blank entry appears, trimmed, at the position given by the
      number of non-blank entries before it: nothing is dropped and input
      order is kept. */
  lemma KeptPosition(entries: seq<string>, i: nat)
    requires i < |entries| && Strip(entries[i]) != []
    ensures |Kept(entries[..i])| < |Kept(entries)|
    ensures Kept(entries)[|Kept(entries[..i])|] == Strip(entries[i])
  {
    assert entries == entries[..i] + [entries[i]] + entries[i + 1..];
    KeptAppend(entries[..i] + [entries[i]], entries[i + 1..]);
    KeptAppend(entries[..i], [entries[i]]);
    KeptSingle(entries[i]);
  }

  /** Every kept entry is already trimmed. */
  lemma {:induction false} KeptTrimmed(entries: seq<string>)
    ensures forall k :: 0 <= k < |Kept(entries)| ==> Strip(Kept(entries)[k]) == Kept(entries)[k]
  {
    if entries != [] {
      KeptTrimmed(entries[1..]);
      StripIdempotent(entries[0]);
      var head := if Strip(entries[0]) == [] then [] else [Strip(entries[0])];
      assert Kept(entries) == head + Kept(entries[1..]);
    }
  }

  /** Every record's number is the trimmed form of some non-blank entry. */
  lemma {:induction false} KeptFromEntries(entries: seq<string>)
    ensures forall k :: 0 <= k < |Kept(entries)| ==>
              exists i :: 0 <= i < |entries| && Kept(entries)[k] == Strip(entries[i])
  {
    if entries != [] {
      KeptFromEntries(entries[1..]);
      var t := Strip(entries[0]);
      var ks := Kept(entries);
      var rest := Kept(entries[1..]);
      var head := if t == [] then [] else [t];
      assert ks == head + rest;
      forall k | 0 <= k < |ks|
        ensures exists i :: 0 <= i < |entries| && ks[k] == Strip(entries[i])
      {
        if k < |head| {
          assert 0 < |entries| && ks[k] == Strip(entries[0]);
        } else {
          assert ks[k] == rest[k - |head|];
          var i' :| 0 <= i' < |entries[1..]| && rest[k - |head|] == Strip(entries[1..][i']);
          assert entries[1..][i'] == entries[i' + 1];
          assert 0 <= i' + 1 < |entries| && ks[k] == Strip(entries[i' + 1]);
        }
      }
    } else {
      assert Kept(entries) == [];
    }
  }

  /** With only blank entries there are no records, and conversely. */
  lemma {:induction false} KeptEmpty(entries: seq<string>)
    ensures Kept(entries) == [] <==> forall i :: 0 <= i < |entries| ==> Strip(entries[i]) == []
  {
    if entries != [] {
      KeptEmpty(entries[1..]);
      assert forall i :: 1 <= i < |entries| ==> entries[i] == entries[1..][i - 1];
    }
  }

  /** One validation record per number, in order. */
  function ValidateEach(numbers: seq<string>, cfg: Config, svc: Services): (rs: seq<Record>)
    ensures |rs| == |numbers|
    ensures forall k :: 0 <= k < |numbers| ==> rs[k] == Validated(ValidateNumber(numbers[k], cfg, svc))
  {
    seq(|numbers|, k requires 0 <= k < |numbers| => Validated(ValidateNumber(numbers[k], cfg, svc)))
  }

  lemma ValidateEachSnoc(numbers: seq<string>, n: string, cfg: Config, svc: Services)
    ensures ValidateEach(numbers + [n], cfg, svc)
         == ValidateEach(numbers, cfg, svc) + [Validated(ValidateNumber(n, cfg, svc))]
  {
  }

  /** One more entry adds one record exactly when it is not blank. */
  lemma BulkStep(entries: seq<string>, i: nat, cfg: Config, svc: Services)
    requires i < |entries|
    ensures ValidateEach(Kept(entries[..i + 1]), cfg, svc)
         == ValidateEach(Kept(entries[..i]), cfg, svc)
            + (if Strip(entries[i]) == [] then [] else [Validated(ValidateNumber(Strip(entries[i]), cfg, svc))])
  {
    assert entries[..i + 1] == entries[..i] + [entries[i]];
    KeptAppend(entries[..i], [entries[i]]);
    KeptSingle(entries[i]);
    if Strip(entries[i]) != [] {
      ValidateEachSnoc(Kept(entries[..i]), Strip(entries[i]), cfg, svc);
    } else {
      assert Kept(entries[..i + 1]) == Kept(entries[..i]);
    }
  }

  /** `bulk_validate` over an already-read table. */
  method BulkValidate(table: TableRead, cfg: Config, svc: Services) returns (records: seq<Record>)
    ensures table.Unreadable? ==>
              records == [FileError(FileErrorNumber, [FileErrorPrefix + table.message])]
    ensures table.Column? ==>
              && |records| == |Kept(table.entries)|
              && forall k :: 0 <= k < |records| ==>
                   records[k] == Validated(ValidateNumber(Kept(table.entries)[k], cfg, svc))
  {
    match table
    case Unreadable(message) =>
      records := [FileError(FileErrorNumber, [FileErrorPrefix + message])];
    case Column(entries) =>
      records := [];
      var i := 0;
      while i < |entries|
        invariant 0 <= i <= |entries|
        invariant records == ValidateEach(Kept(entries[..i]), cfg, svc)
      {
        var number := entries[i];
        var trimmed := Strip(number);
        BulkStep(entries, i, cfg, svc);
        if number != [] && trimmed != [] {
          records := records + [Validated(ValidateNumber(trimmed, cfg, svc))];
        }
        i := i + 1;
      }
      assert entries[..i] == entries;
  }

  /** The blank entries of `["+1234567890", "", "  ", "+44123456789"]` are
      skipped and the other two are kept in order. */
  lemma KeptExample()
    ensures Kept(["+1234567890", "", "  ", "+44123456789"]) == ["+1234567890", "+44123456789"]
  {
    var us, uk := "+1234567890", "+44123456789";
    var entries := [us, "", "  ", uk];
    assert !IsSpace(us[0]) && !IsSpace(us[|us| - 1]);
    StripUnchanged(us);
    assert !IsSpace(uk[0]) && !IsSpace(uk[|uk| - 1]);
    StripUnchanged(uk);
    StripUnchanged("");
    StripSpec("  ");
    assert IsSpace("  "[0]) && IsSpace("  "[1]);
    assert entries == [us] + [""] + ["  "] + [uk];
    KeptAppend([us] + [""] + ["  "], [uk]);
    KeptAppend([us] + [""], ["  "]);
    KeptAppend([us], [""]);
    KeptSingle(us);
    KeptSingle("");
    KeptSingle("  ");
    KeptSingle(uk);
  }
}

=== FILE: export.dfy ===
/** The row-building part of `export_results_to_csv`: one CSV row per
    result, in order, with the diagnostics joined by `"; "`. */
module Export {
  import opened Wrappers
  import opened Text
  import opened Bulk

  /** One row of the exported table, before it is written. `None` is a
      Python `None` value in the row dictionary. */
  datatype CsvRow = CsvRow(
    originalNumber: string,
    formattedNumber: Option<string>,
    country: Option<string>,
    validLib: bool,
    validNumVerify: bool,
    carrier: Option<string>,
    location: Option<string>,
    lineType: Option<string>,
    fraudRisk: Option<string>,
    disposable: Option<bool>,
    errors: string)

  const Separator := "; "

  /** The diagnostics carried by a record. */
  function ErrorsOf(rec: Record): seq<string> {
    match rec
    case Validated(r) => r.errors
    case FileError(_, errors) => errors
  }

  function OriginalNumberOf(rec: Record): string {
    match rec
    case Validated(r) => r.originalNumber
    case FileError(n, _) => n
  }

  /** The `Errors` cell can be split back into the diagnostics it came from
      when none of them is empty or contains a `';'`. */
  predicate Splittable(errors: seq<string>) {
    forall k :: 0 <= k < |errors| ==> errors[k] != [] && ';' !in errors[k]
  }

  /** Reads an `Errors` cell back, as `str.split("; ")` does on cells whose
      pieces hold no other `';'`: the empty cell is the empty list, and
      otherwise a trailing separator leaves a trailing empty piece. */
  function SplitErrors(s: string): seq<string> {
    if s == [] then [] else Pieces(s)
  }

  /** The pieces of a cell between its `"; "` separators, up to the first
      `';'` that is not followed by a space. */
  function Pieces(s: string): (r: seq<string>)
    ensures |r| >= 1
    decreases |s|
  {
    var i := IndexOf(s, ';');
    if i + 1 < |s| && s[i + 1] == ' ' then [s[..i]] + Pieces(s[i + 2..])
    else [s]
  }

  /** Joining a piece in front of a non-empty list puts one separator
      between it and the join of the rest. */
  lemma JoinCons(head: string, rest: seq<string>)
    requires |rest| >= 1
    ensures Join([head] + rest, Separator) == head + Separator + Join(rest, Separator)
  {
    assert ([head] + rest)[1..] == rest;
  }

  /** Splitting a cell that starts with a separator-free piece and a
      separator gives that piece followed by the pieces of the rest. */
  lemma PiecesCons(head: string, rest: string)
    requires ';' !in head
    ensures Pieces(head + Separator + rest) == [head] + Pieces(rest)
  {
    var s := head + Separator + rest;
    assert s[|head|] == ';' && s[|head| + 1] == ' ';
    assert forall k :: 0 <= k < |head| ==> s[k] == head[k];
    var i := IndexOf(s, ';');
    assert i == |head|;
    assert s[..i] == head;
    assert s[i + 2..] == rest;
  }

  /** Joining the pieces of any text gives that text back. */
  lemma {:induction false} JoinPieces(s: string)
    ensures Join(Pieces(s), Separator) == s
    decreases |s|
  {
    var i := IndexOf(s, ';');
    if i + 1 < |s| && s[i + 1] == ' ' {
      JoinPieces(s[i + 2..]);
      JoinCons(s[..i], Pieces(s[i + 2..]));
      assert s[..i] + Separator + s[i + 2..] == s;
    }
  }

  /** The cell is determined by its split: re-joining the pieces of any cell
      gives the cell, so the join adds no trailing separator. */
  lemma JoinSplit(s: string)
    ensures Join(SplitErrors(s), Separator) == s
  {
    if s != [] { JoinPieces(s); }
  }

  /** Splitting the join of separator-free pieces gives the pieces back. */
  lemma {:induction false} PiecesJoin(errors: seq<string>)
    requires |errors| >= 1
    requires forall k :: 0 <= k < |errors| ==> ';' !in errors[k]
    ensures Pieces(Join(errors, Separator)) == errors
  {
    if |errors| == 1 {
      var s := errors[0];
      assert ';' !in s;
      assert IndexOf(s, ';') == |s|;
    } else {
      assert Join(errors, Separator) == errors[0] + Separator + Join(errors[1..], Separator);
      assert ';' !in errors[0];
      PiecesCons(errors[0], Join(errors[1..], Separator));
      PiecesJoin(errors[1..]);
      assert errors == [errors[0]] + errors[1..];
    }
  }

  /** Joining with `"; "` loses nothing: splitting the cell gives the
      diagnostics back. */
  lemma SplitJoin(errors: seq<string>)
    requires Splittable(errors)
    ensures SplitErrors(Join(errors, Separator)) == errors
  {
    if |errors| >= 1 {
      assert errors[0] != [];
      assert |errors| > 1 ==> Join(errors, Separator) == errors[0] + Separator + Join(errors[1..], Separator);
      assert Join(errors, Separator) != [];
      PiecesJoin(errors);
    }
  }

  /** The row for one record; keys missing from the fallback record take the
      defaults `''` and `False`. */
  function ExportRow(rec: Record): (row: CsvRow)
    ensures row.originalNumber == OriginalNumberOf(rec)
    ensures Splittable(ErrorsOf(rec)) ==> SplitErrors(row.errors) == ErrorsOf(rec)
    ensures rec.FileError? ==>
              && !row.validLib && !row.validNumVerify && row.disposable == Some(false)
              && row.formattedNumber == Some("") && row.country == Some("")
              && row.carrier == Some("") && row.location == Some("")
              && row.lineType == Some("") && row.fraudRisk == Some("")
  {
    assert Splittable(ErrorsOf(rec)) ==> SplitErrors(Join(ErrorsOf(rec), Separator)) == ErrorsOf(rec) by {
      if Splittable(ErrorsOf(rec)) { SplitJoin(ErrorsOf(rec)); }
    }
    match rec
    case Validated(r) =>
      CsvRow(r.originalNumber, r.formattedNumber, r.country, r.validLib, r.validNumVerify,
             r.carrier, r.location, r.lineType, r.fraudRisk, r.disposable,
             Join(r.errors, Separator))
    case FileError(n, errors) =>
      CsvRow(n, Some(""), Some(""), false, false, Some(""), Some(""), Some(""), Some(""), Some(false),
             Join(errors, Separator))
  }

  /** One row per result, in the same order. */
  function ExportRows(results: seq<Record>): (rows: seq<CsvRow>)
    ensures |rows| == |results|
    ensures forall i :: 0 <= i < |results| ==>
              && rows[i].originalNumber == OriginalNumberOf(results[i])
              && (Splittable(ErrorsOf(results[i])) ==> SplitErrors(rows[i].errors) == ErrorsOf(results[i]))
  {
    seq(|results|, i requires 0 <= i < |results| => ExportRow(results[i]))
  }
}

=== FILE: sources.dfy ===
/** The three validation sources as the merge step sees them: the numbering-plan
    library's outcome, and the result-shaping parts of the two lookup helpers
    (`_call_numverify_api`, `_call_twilio_lookup`). The network calls themselves
    are oracle functions from a request to an abstract outcome. */
module Sources {
  import opened Wrappers
  import opened Text

  /** What `phonenumbers.parse` / `is_valid_number` / `format_number` /
      `region_code_for_number` yield for one input string. */
  datatype LibOutcome =
    | ParseError(message: string)
    | Parsed(valid: bool, formatted: string, region: string)

  /** What a lookup helper hands back to the merge step: `None`, a result
      dictionary, or an exception that escaped the helper. */
  datatype Reply<T> = NoData | Data(value: T) | Raised(message: string)

  /** The query string of the NumVerify GET request. */
  datatype NumVerifyRequest = NumVerifyRequest(accessKey: string, number: string, format: int)

  /** The fields of a decoded NumVerify response body the validator reads;
      `None` is a key missing from the JSON object. */
  datatype NumVerifyPayload = NumVerifyPayload(
    success: bool,
    valid: Option<bool>,
    carrier: Option<string>,
    countryName: Option<string>,
    location: Option<string>)

  /** The outcome of `requests.get` + `raise_for_status` + `json()`: a
      `RequestException`, a decoded body, or any other exception. */
  datatype HttpOutcome =
    | RequestFailed(message: string)
    | Received(payload: NumVerifyPayload)
    | Escaped(message: string)

  /** `_call_numverify_api`: one request carrying the key and the number
      verbatim with `format=1`; a body whose success flag is set is returned,
      a cleared flag or a request failure becomes `None`, and any other
      exception propagates to the caller. */
  function CallNumVerify(number: string, key: string, http: NumVerifyRequest -> HttpOutcome)
    : (r: Reply<NumVerifyPayload>)
    ensures var outcome := http(NumVerifyRequest(key, number, 1));
            && (r.Data? <==> outcome.Received? && outcome.payload.success)
            && (r.Data? ==> r.value == outcome.payload)
            && (r.Raised? <==> outcome.Escaped?)
            && (r.Raised? ==> r.message == outcome.message)
  {
    match http(NumVerifyRequest(key, number, 1))
    case RequestFailed(_) => NoData
    case Received(payload) => if payload.success then Data(payload) else NoData
    case Escaped(message) => Raised(message)
  }

  /** A Twilio client built from the credentials, asked to look up one number. */
  datatype TwilioRequest = TwilioRequest(sid: string, authToken: string, number: string)

  /** The outcome of building the client and fetching the phone number: any
      exception, or the fetched record's `carrier` dictionary (possibly `None`). */
  datatype FetchOutcome =
    | FetchFailed(message: string)
    | Fetched(carrier: Option<map<string, string>>)

  /** The dictionary `_call_twilio_lookup` returns on success. */
  datatype TwilioData = TwilioData(lineType: string, fraudRisk: string, disposable: bool)

  const Unknown := "Unknown"

  /** Every space and hyphen removed from `number`. */
  function StripSeparators(number: string): (r: string)
    ensures ' ' !in r && '-' !in r
    ensures forall x :: x != ' ' && x != '-' ==> multiset(r)[x] == multiset(number)[x]
    ensures ' ' !in number && '-' !in number ==> r == number
  {
    var noSpaces := RemoveAll(number, ' ');
    var r := RemoveAll(noSpaces, '-');
    assert multiset(r)[' '] == multiset(noSpaces)[' '] == 0;
    r
  }

  /** Separator removal works character by character, so the surviving
      characters keep their order. */
  lemma StripSeparatorsAppend(a: string, b: string)
    ensures StripSeparators(a + b) == StripSeparators(a) + StripSeparators(b)
  {
    RemoveAllAppend(a, b, ' ');
    RemoveAllAppend(RemoveAll(a, ' '), RemoveAll(b, ' '), '-');
  }

  /** The number as sent to Twilio: separators removed, then a `'+'` prefixed
      unless the result already starts with one. */
  function TwilioFormat(number: string): (r: string)
    ensures |r| > 0 && r[0] == '+'
    ensures ' ' !in r && '-' !in r
    ensures var body := StripSeparators(number);
            && |body| <= |r| && r[|r| - |body|..] == body
            && |r| <= |body| + 1
            && (|r| == |body| <==> |body| > 0 && body[0] == '+')
    ensures forall x :: x != ' ' && x != '-' && x != '+' ==> multiset(r)[x] == multiset(number)[x]
  {
    var body := StripSeparators(number);
    if |body| > 0 && body[0] == '+' then body else "+" + body
  }

  /** Normalising an already normalised number changes nothing. */
  lemma TwilioFormatIdempotent(number: string)
    ensures TwilioFormat(TwilioFormat(number)) == TwilioFormat(number)
  {
  }

  /** The carrier type reported by Twilio, `'Unknown'` when the carrier record
      is missing or empty or has no `type` entry. */
  function CarrierType(carrier: Option<map<string, string>>): (t: string)
    ensures carrier.Some? && "type" in carrier.value ==> t == carrier.value["type"]
    ensures carrier.None? || "type" !in carrier.value ==> t == Unknown
  {
    if carrier.Some? && carrier.value != map[] && "type" in carrier.value then carrier.value["type"]
    else Unknown
  }

  /** `_call_twilio_lookup`: looks up the normalised number; every exception is
      caught and becomes `None`, so this helper never raises. On success the
      fraud risk and disposable flags are fixed placeholders. */
  function CallTwilio(number: string, sid: string, token: string, fetch: TwilioRequest -> FetchOutcome)
    : (r: Reply<TwilioData>)
    ensures !r.Raised?
    ensures var outcome := fetch(TwilioRequest(sid, token, TwilioFormat(number)));
            && (r.Data? <==> outcome.Fetched?)
            && (r.Data? ==> r.value == TwilioData(CarrierType(outcome.carrier), "Low", false))
  {
    match fetch(TwilioRequest(sid, token, TwilioFormat(number)))
    case FetchFailed(_) => NoData
    case Fetched(carrier) => Data(TwilioData(CarrierType(carrier), "Low", false))
  }
}

=== FILE: text.dfy ===
/** String helpers with the semantics of the Python built-ins the validator uses:
    `str.strip()`, `str.replace(c, '')` and `'; '.join(...)`. */
module Text {

  /** Python's `str.isspace()` for one character: the characters `str.strip()`
      removes when called without arguments. */
  predicate IsSpace(c: char) {
    || ('\t' <= c <= '\r')
    || ('\U{1C}' <= c <= '\U{1F}')
    || c == ' '
    || c == '\U{85}'
    || c == '\U{A0}'
    || c == '\U{1680}'
    || ('\U{2000}' <= c <= '\U{200A}')
    || c == '\U{2028}'
    || c == '\U{2029}'
    || c == '\U{202F}'
    || c == '\U{205F}'
    || c == '\U{3000}'
  }

  /** Number of whitespace characters at the front of `s`. */
  function LeadingSpaces(s: string): (n: nat)
    ensures n <= |s|
    ensures forall i :: 0 <= i < n ==> IsSpace(s[i])
    ensures n == |s| || !IsSpace(s[n])
  {
    if |s| == 0 || !IsSpace(s[0]) then 0 else 1 + LeadingSpaces(s[1..])
  }

  /** Python's `s.strip()`: leading and trailing whitespace removed. */
  function Strip(s: string): (r: string)
    ensures |r| <= |s|
    decreases |s|
  {
    if |s| > 0 && IsSpace(s[0]) then Strip(s[1..])
    else if |s| > 0 && IsSpace(s[|s| - 1]) then Strip(s[..|s| - 1])
    else s
  }

  /** The stripped string is the slice of `s` that starts after the leading
      whitespace and holds every non-whitespace character of `s`; its ends
      are not whitespace, and it is empty exactly when `s` is all whitespace. */
  lemma {:induction false} StripSpec(s: string)
    ensures var r, a := Strip(s), LeadingSpaces(s);
            && a + |r| <= |s|
            && r == s[a..a + |r|]
            && (forall i :: 0 <= i < |s| && !IsSpace(s[i]) ==> a <= i < a + |r|)
            && (r == [] || (!IsSpace(r[0]) && !IsSpace(r[|r| - 1])))
            && (r == [] <==> forall i :: 0 <= i < |s| ==> IsSpace(s[i]))
    decreases |s|
  {
    if |s| > 0 && IsSpace(s[0]) {
      var t := s[1..];
      StripSpec(t);
      assert LeadingSpaces(s) == 1 + LeadingSpaces(t);
      assert forall i :: 1 <= i < |s| ==> s[i] == t[i - 1];
    } else if |s| > 0 && IsSpace(s[|s| - 1]) {
      var t := s[..|s| - 1];
      StripSpec(t);
      assert LeadingSpaces(s) == 0 == LeadingSpaces(t);
      assert forall i :: 0 <= i < |t| ==> s[i] == t[i];
    } else {
      assert LeadingSpaces(s) == 0;
    }
  }

  /** A string without surrounding whitespace is its own strip. */
  lemma StripUnchanged(s: string)
    requires s == [] || (!IsSpace(s[0]) && !IsSpace(s[|s| - 1]))
    ensures Strip(s) == s
  {
  }

  /** Stripping is idempotent. */
  lemma StripIdempotent(s: string)
    ensures Strip(Strip(s)) == Strip(s)
  {
    StripSpec(s);
    StripUnchanged(Strip(s));
  }

  /** Python's `s.replace(c, '')`: every occurrence of `c` removed. */
  function RemoveAll(s: string, c: char): (r: string)
    ensures c !in r
    ensures |r| <= |s|
    ensures forall x :: x != c ==> multiset(r)[x] == multiset(s)[x]
    ensures c !in s ==> r == s
  {
    if s == [] then []
    else
      assert s == [s[0]] + s[1..];
      if s[0] == c then RemoveAll(s[1..], c) else [s[0]] + RemoveAll(s[1..], c)
  }

  /** Removal works character by character: it distributes over concatenation,
      so the surviving characters keep their relative order. */
  lemma {:induction false} RemoveAllAppend(a: string, b: string, c: char)
    ensures RemoveAll(a + b, c) == RemoveAll(a, c) + RemoveAll(b, c)
  {
    if a == [] {
      assert a + b == b;
    } else {
      assert (a + b)[1..] == a[1..] + b;
      RemoveAllAppend(a[1..], b, c);
    }
  }

  /** Python's `sep.join(parts)`. */
  function Join(parts: seq<string>, sep: string): (r: string)
    ensures |parts| == 0 ==> r == []
    ensures |parts| == 1 ==> r == parts[0]
  {
    if |parts| == 0 then []
    else if |parts| == 1 then parts[0]
    else parts[0] + sep + Join(parts[1..], sep)
  }

  /** Position of the first `c` in `s`, or `|s|` when there is none. */
  function IndexOf(s: string, c: char): (i: nat)
    ensures i <= |s|
    ensures forall k :: 0 <= k < i ==> s[k] != c
    ensures i < |s| ==> s[i] == c
  {
    if s == [] then 0
    else if s[0] == c then 0
    else 1 + IndexOf(s[1..], c)
  }
}

=== FILE: validator.dfy ===
/** `validate_number`: one result record seeded with defaults, then filled by
    three independent sources run in a fixed order — the numbering-plan
    library, NumVerify and Twilio. A source either sets its own fields or
    appends one diagnostic to `errors`; no source stops a later one. */
module Validator {
  import opened Wrappers
  import opened Sources

  /** The per-number result dictionary. */
  datatype ValidationResult = ValidationResult(
    originalNumber: string,
    formattedNumber: Option<string>,
    country: Option<string>,
    validLib: bool,
    validNumVerify: bool,
    carrier: Option<string>,
    location: Option<string>,
    lineType: Option<string>,
    fraudRisk: Option<string>,
    disposable: Option<bool>,
    errors: seq<string>)

  const InvalidFormat := "Invalid number format according to libphonenumber"
  const LibraryErrorPrefix := "libphonenumber error: "
  const NumVerifyNotConfigured := "NumVerify API key not configured"
  const NumVerifyErrorPrefix := "NumVerify API error: "
  const TwilioNotConfigured := "Twilio credentials not configured"
  const TwilioErrorPrefix := "Twilio API error: "

  /** Which source a diagnostic string speaks for, read off its text. */
  datatype Origin = FromLibrary | FromNumVerify | FromTwilio | Unclassified

  function OriginOf(e: string): Origin {
    if e == InvalidFormat || LibraryErrorPrefix <= e then FromLibrary
    else if e == NumVerifyNotConfigured || NumVerifyErrorPrefix <= e then FromNumVerify
    else if e == TwilioNotConfigured || TwilioErrorPrefix <= e then FromTwilio
    else Unclassified
  }

  /** The position of a source in the fixed run order. */
  function Rank(o: Origin): nat {
    match o
    case FromLibrary => 0
    case FromNumVerify => 1
    case FromTwilio => 2
    case Unclassified => 3
  }

  function Origins(errors: seq<string>): (os: seq<Origin>)
    ensures |os| == |errors|
    ensures forall i :: 0 <= i < |errors| ==> os[i] == OriginOf(errors[i])
  {
    seq(|errors|, i requires 0 <= i < |errors| => OriginOf(errors[i]))
  }

  /** Two strings whose first characters differ are neither equal nor
      prefixes of one another. */
  lemma FirstCharDiffers(p: string, s: string)
    requires p != [] && s != [] && p[0] != s[0]
    ensures p != s && !(p <= s)
  {
  }

  /** Both library diagnostics are attributed to the library. */
  lemma LibraryOrigins(m: string)
    ensures OriginOf(InvalidFormat) == FromLibrary
    ensures OriginOf(LibraryErrorPrefix + m) == FromLibrary
  {
    assert LibraryErrorPrefix <= LibraryErrorPrefix + m;
  }

  /** Both NumVerify diagnostics are attributed to NumVerify, and they differ. */
  lemma NumVerifyOrigins(m: string)
    ensures OriginOf(NumVerifyNotConfigured) == FromNumVerify
    ensures OriginOf(NumVerifyErrorPrefix + m) == FromNumVerify
    ensures NumVerifyErrorPrefix + m != NumVerifyNotConfigured
  {
    NumVerifyNotConfiguredOrigin();
    NumVerifyErrorOrigin(m);
    NumVerifyDistinct(m);
  }

  lemma NumVerifyNotConfiguredOrigin()
    ensures OriginOf(NumVerifyNotConfigured) == FromNumVerify
  {
    assert NumVerifyNotConfigured[0] == 'N';
    assert InvalidFormat != NumVerifyNotConfigured;
    assert !(LibraryErrorPrefix <= NumVerifyNotConfigured) by { assert LibraryErrorPrefix[0] == 'l'; }
  }

  lemma NumVerifyErrorOrigin(m: string)
    ensures OriginOf(NumVerifyErrorPrefix + m) == FromNumVerify
  {
    // splitting the long literal lets the solver read off its first character
    assert InvalidFormat == "Invalid " + "number format according to libphonenumber";
    var nv := NumVerifyErrorPrefix + m;
    assert nv[0] == 'N';
    FirstCharDiffers(InvalidFormat, nv);
    FirstCharDiffers(LibraryErrorPrefix, nv);
    assert NumVerifyErrorPrefix <= nv;
  }

  lemma NumVerifyDistinct(m: string)
    ensures NumVerifyErrorPrefix + m != NumVerifyNotConfigured
  {
    var nv := NumVerifyErrorPrefix + m;
    // index 14 is the first position where the two messages differ
    assert nv[14] == 'e' && NumVerifyNotConfigured[14] == 'k';
  }

  /** Both Twilio diagnostics are attributed to Twilio, and they differ. */
  lemma TwilioOrigins(m: string)
    ensures OriginOf(TwilioNotConfigured) == FromTwilio
    ensures OriginOf(TwilioErrorPrefix + m) == FromTwilio
    ensures TwilioErrorPrefix + m != TwilioNotConfigured
  {
    TwilioNotConfiguredOrigin();
    TwilioErrorOrigin(m);
    TwilioDistinct(m);
  }

  lemma TwilioNotConfiguredOrigin()
    ensures OriginOf(TwilioNotConfigured) == FromTwilio
  {
    assert TwilioNotConfigured[0] == 'T';
    assert InvalidFormat != TwilioNotConfigured;
    assert !(LibraryErrorPrefix <= TwilioNotConfigured) by { assert LibraryErrorPrefix[0] == 'l'; }
    assert NumVerifyNotConfigured != TwilioNotConfigured;
    assert !(NumVerifyErrorPrefix <= TwilioNotConfigured) by { assert NumVerifyErrorPrefix[0] == 'N'; }
  }

  lemma TwilioErrorOrigin(m: string)
    ensures OriginOf(TwilioErrorPrefix + m) == FromTwilio
  {
    // splitting the long literal lets the solver read off its first character
    assert InvalidFormat == "Invalid " + "number format according to libphonenumber";
    var tw := TwilioErrorPrefix + m;
    assert tw[0] == 'T';
    FirstCharDiffers(InvalidFormat, tw);
    FirstCharDiffers(LibraryErrorPrefix, tw);
    FirstCharDiffers(NumVerifyNotConfigured, tw);
    FirstCharDiffers(NumVerifyErrorPrefix, tw);
    assert TwilioErrorPrefix <= tw;
  }

  lemma TwilioDistinct(m: string)
    ensures TwilioErrorPrefix + m != TwilioNotConfigured
  {
    var tw := TwilioErrorPrefix + m;
    // index 7 is the first position where the two messages differ
    assert tw[7] == 'A' && TwilioNotConfigured[7] == 'c';
  }

  /** Every diagnostic the merge step writes is attributed to the source that
      wrote it, and the two diagnostics of one remote source are distinct. */
  lemma DiagnosticOrigins(m: string)
    ensures OriginOf(InvalidFormat) == FromLibrary
    ensures OriginOf(LibraryErrorPrefix + m) == FromLibrary
    ensures OriginOf(NumVerifyNotConfigured) == FromNumVerify
    ensures OriginOf(NumVerifyErrorPrefix + m) == FromNumVerify
    ensures OriginOf(TwilioNotConfigured) == FromTwilio
    ensures OriginOf(TwilioErrorPrefix + m) == FromTwilio
    ensures NumVerifyErrorPrefix + m != NumVerifyNotConfigured
    ensures TwilioErrorPrefix + m != TwilioNotConfigured
  {
    LibraryOrigins(m);
    NumVerifyOrigins(m);
    TwilioOrigins(m);
  }

  /** A remote source as the merge step sees it: skipped because its
      credentials are missing, or called and answered with a reply. */
  datatype Source<T> = NotConfigured | Configured(reply: Reply<T>)

  /** The library step records a diagnostic unless the number parses and is valid. */
  predicate LibraryFails(lib: LibOutcome) {
    !(lib.Parsed? && lib.valid)
  }

  /** A remote step records a diagnostic when it is not configured or its
      helper raised; a helper returning `None` records nothing. */
  predicate Reports<T>(src: Source<T>) {
    src.NotConfigured? || src.reply.Raised?
  }

  /** The record before any source has run. */
  function Seed(number: string): (r: ValidationResult)
    ensures r.originalNumber == number && r.errors == []
    ensures !r.validLib && !r.validNumVerify
    ensures r.formattedNumber == None && r.country == None
    ensures r.carrier == None && r.location == None
    ensures r.lineType == None && r.fraudRisk == None && r.disposable == None
  {
    ValidationResult(number, None, None, false, false, None, None, None, None, None, [])
  }

  /** The diagnostic the library step appends: one entry exactly when it fails. */
  function LibraryDiagnostics(lib: LibOutcome): (ds: seq<string>)
    ensures |ds| == (if LibraryFails(lib) then 1 else 0)
    ensures forall e :: e in ds ==> OriginOf(e) == FromLibrary
  {
    match lib
    case ParseError(message) =>
      DiagnosticOrigins(message);
      [LibraryErrorPrefix + message]
    case Parsed(valid, _, _) =>
      DiagnosticOrigins("");
      if valid then [] else [InvalidFormat]
  }

  /** The diagnostic the NumVerify step appends: one entry exactly when it reports. */
  function NumVerifyDiagnostics(nv: Source<NumVerifyPayload>): (ds: seq<string>)
    ensures |ds| == (if Reports(nv) then 1 else 0)
    ensures forall e :: e in ds ==> OriginOf(e) == FromNumVerify
  {
    match nv
    case NotConfigured =>
      DiagnosticOrigins("");
      [NumVerifyNotConfigured]
    case Configured(reply) =>
      DiagnosticOrigins(if reply.Raised? then reply.message else "");
      if reply.Raised? then [NumVerifyErrorPrefix + reply.message] else []
  }

  /** The diagnostic the Twilio step appends: one entry exactly when it reports. */
  function TwilioDiagnostics(tw: Source<TwilioData>): (ds: seq<string>)
    ensures |ds| == (if Reports(tw) then 1 else 0)
    ensures forall e :: e in ds ==> OriginOf(e) == FromTwilio
  {
    match tw
    case NotConfigured =>
      DiagnosticOrigins("");
      [TwilioNotConfigured]
    case Configured(reply) =>
      DiagnosticOrigins(if reply.Raised? then reply.message else "");
      if reply.Raised? then [TwilioErrorPrefix + reply.message] else []
  }

  /** Library step: fills the formatted number, region and validity when the
      number parses and is valid, and otherwise appends its diagnostic;
      touches nothing else. */
  function LibraryStep(r: ValidationResult, lib: LibOutcome): (r': ValidationResult)
    ensures r'.(formattedNumber := r.formattedNumber, country := r.country,
                validLib := r.validLib, errors := r.errors) == r
    ensures r'.errors == r.errors + LibraryDiagnostics(lib)
  {
    if lib.Parsed? && lib.valid then
      r.(validLib := true, formattedNumber := Some(lib.formatted), country := Some(lib.region))
    else
      r.(errors := r.errors + LibraryDiagnostics(lib))
  }

  /** The `location` field: country name and location, each `'Unknown'` when missing. */
  function Location(p: NumVerifyPayload): (r: string)
    ensures var country := p.countryName.GetOr(Unknown);
            var place := p.location.GetOr(Unknown);
            && |r| == |country| + 2 + |place|
            && r[..|country|] == country
            && r[|country|..|country| + 2] == ", "
            && r[|country| + 2..] == place
    ensures p.countryName.None? && p.location.None? ==> r == "Unknown, Unknown"
  {
    p.countryName.GetOr(Unknown) + ", " + p.location.GetOr(Unknown)
  }

  /** NumVerify step: fills validity, carrier and location from a returned
      body, and otherwise appends its diagnostic (if any); touches nothing else. */
  function NumVerifyStep(r: ValidationResult, nv: Source<NumVerifyPayload>): (r': ValidationResult)
    ensures r'.(validNumVerify := r.validNumVerify, carrier := r.carrier,
                location := r.location, errors := r.errors) == r
    ensures r'.errors == r.errors + NumVerifyDiagnostics(nv)
  {
    if nv.Configured? && nv.reply.Data? then
      var p := nv.reply.value;
      r.(validNumVerify := p.valid.GetOr(false),
         carrier := Some(p.carrier.GetOr(Unknown)),
         location := Some(Location(p)))
    else
      r.(errors := r.errors + NumVerifyDiagnostics(nv))
  }

  /** Twilio step: fills line type, fraud risk and disposable flag from a
      returned result, and otherwise appends its diagnostic (if any); touches
      nothing else. */
  function TwilioStep(r: ValidationResult, tw: Source<TwilioData>): (r': ValidationResult)
    ensures r'.(lineType := r.lineType, fraudRisk := r.fraudRisk,
                disposable := r.disposable, errors := r.errors) == r
    ensures r'.errors == r.errors + TwilioDiagnostics(tw)
  {
    if tw.Configured? && tw.reply.Data? then
      var d := tw.reply.value;
      r.(lineType := Some(d.lineType), fraudRisk := Some(d.fraudRisk), disposable := Some(d.disposable))
    else
      r.(errors := r.errors + TwilioDiagnostics(tw))
  }

  /** The three steps in order over the seeded record. */
  function Merge(number: string, lib: LibOutcome, nv: Source<NumVerifyPayload>, tw: Source<TwilioData>)
    : (r: ValidationResult)
    ensures r.originalNumber == number
    ensures r.validLib <==> lib.Parsed? && lib.valid
    ensures r.validLib ==> r.formattedNumber == Some(lib.formatted) && r.country == Some(lib.region)
    ensures !r.validLib ==> r.formattedNumber == None && r.country == None
    ensures r.errors == LibraryDiagnostics(lib) + NumVerifyDiagnostics(nv) + TwilioDiagnostics(tw)
  {
    TwilioStep(NumVerifyStep(LibraryStep(Seed(number), lib), nv), tw)
  }

  /** The library step runs first, so its diagnostic, when there is one, is
      the first entry of `errors`. */
  lemma MergeLibraryFirst(number: string, lib: LibOutcome, nv: Source<NumVerifyPayload>, tw: Source<TwilioData>)
    ensures var r := Merge(number, lib, nv, tw);
            && (lib.ParseError? ==> |r.errors| > 0 && r.errors[0] == LibraryErrorPrefix + lib.message)
            && (lib.Parsed? && !lib.valid ==> |r.errors| > 0 && r.errors[0] == InvalidFormat)
            && (!LibraryFails(lib) ==> forall e :: e in r.errors ==> OriginOf(e) != FromLibrary)
  {
  }

  /** NumVerify's fields are set from its body when one was returned and keep
      their defaults otherwise (not configured, helper returned `None`, or
      helper raised). */
  lemma MergeNumVerifyFields(number: string, lib: LibOutcome, nv: Source<NumVerifyPayload>, tw: Source<TwilioData>)
    ensures var r := Merge(number, lib, nv, tw);
            && (!(nv.Configured? && nv.reply.Data?) ==>
                  !r.validNumVerify && r.carrier == None && r.location == None)
            && (nv.Configured? && nv.reply.Data? ==>
                  && r.validNumVerify == nv.reply.value.valid.GetOr(false)
                  && r.carrier == Some(nv.reply.value.carrier.GetOr(Unknown))
                  && r.location == Some(Location(nv.reply.value)))
  {
  }

  /** Twilio's fields are set from its result when one was returned and stay
      `None` otherwise. */
  lemma MergeTwilioFields(number: string, lib: LibOutcome, nv: Source<NumVerifyPayload>, tw: Source<TwilioData>)
    ensures var r := Merge(number, lib, nv, tw);
            && (!(tw.Configured? && tw.reply.Data?) ==>
                  r.lineType == None && r.fraudRisk == None && r.disposable == None)
            && (tw.Configured? && tw.reply.Data? ==>
                  && r.lineType == Some(tw.reply.value.lineType)
                  && r.fraudRisk == Some(tw.reply.value.fraudRisk)
                  && r.disposable == Some(tw.reply.value.disposable))
  {
  }

  /** At most one diagnostic from each source, concatenated in run order,
      gives strictly increasing ranks and the origins of the parts present. */
  lemma ConcatOrigins(l: seq<string>, n: seq<string>, t: seq<string>)
    requires |l| <= 1 && |n| <= 1 && |t| <= 1
    requires forall e :: e in l ==> OriginOf(e) == FromLibrary
    requires forall e :: e in n ==> OriginOf(e) == FromNumVerify
    requires forall e :: e in t ==> OriginOf(e) == FromTwilio
    ensures var es := l + n + t;
            && (FromLibrary in Origins(es) <==> |l| == 1)
            && (FromNumVerify in Origins(es) <==> |n| == 1)
            && (FromTwilio in Origins(es) <==> |t| == 1)
            && Unclassified !in Origins(es)
            && (forall i, j :: 0 <= i < j < |es| ==> Rank(OriginOf(es[i])) < Rank(OriginOf(es[j])))
  {
    var es := l + n + t;
    var os := Origins(es);
    forall k | 0 <= k < |es|
      ensures k < |l| ==> os[k] == FromLibrary
      ensures |l| <= k < |l| + |n| ==> os[k] == FromNumVerify
      ensures |l| + |n| <= k ==> os[k] == FromTwilio
    {
      if k < |l| {
        assert es[k] in l;
      } else if k < |l| + |n| {
        assert es[k] == n[k - |l|] && es[k] in n;
      } else {
        assert es[k] == t[k - |l| - |n|] && es[k] in t;
      }
    }
    if |l| == 1 { assert os[0] == FromLibrary; }
    if |n| == 1 { assert os[|l|] == FromNumVerify; }
    if |t| == 1 { assert os[|l| + |n|] == FromTwilio; }
  }

  /** `errors` holds one entry per reporting source, attributed to it, in the
      run order library, NumVerify, Twilio; so there are at most three. */
  lemma MergeErrors(number: string, lib: LibOutcome, nv: Source<NumVerifyPayload>, tw: Source<TwilioData>)
    ensures var r := Merge(number, lib, nv, tw);
            && (FromLibrary in Origins(r.errors) <==> LibraryFails(lib))
            && (FromNumVerify in Origins(r.errors) <==> Reports(nv))
            && (FromTwilio in Origins(r.errors) <==> Reports(tw))
            && Unclassified !in Origins(r.errors)
            && (forall i, j :: 0 <= i < j < |r.errors| ==>
                  Rank(OriginOf(r.errors[i])) < Rank(OriginOf(r.errors[j])))
            && |r.errors| == (if LibraryFails(lib) then 1 else 0)
                           + (if Reports(nv) then 1 else 0)
                           + (if Reports(tw) then 1 else 0)
            && |r.errors| <= 3
  {
    ConcatOrigins(LibraryDiagnostics(lib), NumVerifyDiagnostics(nv), TwilioDiagnostics(tw));
  }

  /** The text of each remote diagnostic: the "not configured" message when
      the source was skipped, the helper's exception text when it raised. */
  lemma MergeRemoteDiagnostics(number: string, lib: LibOutcome, nv: Source<NumVerifyPayload>, tw: Source<TwilioData>)
    ensures var r := Merge(number, lib, nv, tw);
            && (forall e :: e in r.errors && OriginOf(e) == FromNumVerify ==>
                  if nv.NotConfigured? then e == NumVerifyNotConfigured
                  else nv.reply.Raised? && e == NumVerifyErrorPrefix + nv.reply.message)
            && (forall e :: e in r.errors && OriginOf(e) == FromTwilio ==>
                  if tw.NotConfigured? then e == TwilioNotConfigured
                  else tw.reply.Raised? && e == TwilioErrorPrefix + tw.reply.message)
            && (NumVerifyNotConfigured in r.errors <==> nv.NotConfigured?)
            && (TwilioNotConfigured in r.errors <==> tw.NotConfigured?)
  {
    var r := Merge(number, lib, nv, tw);
    var l, n, t := LibraryDiagnostics(lib), NumVerifyDiagnostics(nv), TwilioDiagnostics(tw);
    assert r.errors == l + n + t;
    DiagnosticOrigins(if nv.Configured? && nv.reply.Raised? then nv.reply.message else "");
    DiagnosticOrigins(if tw.Configured? && tw.reply.Raised? then tw.reply.message else "");
    forall e | e in r.errors && OriginOf(e) == FromNumVerify
      ensures e in n
    {
      assert e in l || e in n || e in t;
    }
    forall e | e in r.errors && OriginOf(e) == FromTwilio
      ensures e in t
    {
      assert e in l || e in n || e in t;
    }
  }

  /** No source's outcome influences another source's fields, and the
      remote diagnostics do not depend on the library outcome: a failing
      step never stops a later one. */
  lemma MergeIndependent(number: string, lib1: LibOutcome, lib2: LibOutcome,
                         nv: Source<NumVerifyPayload>, tw: Source<TwilioData>)
    ensures var a, b := Merge(number, lib1, nv, tw), Merge(number, lib2, nv, tw);
            && a.(formattedNumber := b.formattedNumber, country := b.country,
                  validLib := b.validLib, errors := b.errors) == b
            && a.errors[|LibraryDiagnostics(lib1)|..] == b.errors[|LibraryDiagnostics(lib2)|..]
  {
    var a, b := Merge(number, lib1, nv, tw), Merge(number, lib2, nv, tw);
    assert a.errors[|LibraryDiagnostics(lib1)|..] == NumVerifyDiagnostics(nv) + TwilioDiagnostics(tw);
    assert b.errors[|LibraryDiagnostics(lib2)|..] == NumVerifyDiagnostics(nv) + TwilioDiagnostics(tw);
  }

  /** The three environment variables the validator reads; `None` is unset. */
  datatype Config = Config(
    numVerifyKey: Option<string>,
    twilioSid: Option<string>,
    twilioToken: Option<string>)

  /** The outside world: the numbering-plan library applied to the raw
      input, the NumVerify HTTP exchange and the Twilio lookup. */
  datatype Services = Services(
    library: string -> LibOutcome,
    numVerify: NumVerifyRequest -> HttpOutcome,
    twilio: TwilioRequest -> FetchOutcome)

  /** Python truthiness of an environment value: set and non-empty. */
  predicate IsSet(v: Option<string>) {
    v.Some? && v.value != ""
  }

  predicate TwilioConfigured(cfg: Config) {
    IsSet(cfg.twilioSid) && IsSet(cfg.twilioToken)
  }

  /** The NumVerify helper is called only when the key is set. */
  function NumVerifySource(number: string, cfg: Config, svc: Services): (src: Source<NumVerifyPayload>)
    ensures src.Configured? <==> IsSet(cfg.numVerifyKey)
    ensures src.Configured? ==> src.reply == CallNumVerify(number, cfg.numVerifyKey.value, svc.numVerify)
  {
    if IsSet(cfg.numVerifyKey) then Configured(CallNumVerify(number, cfg.numVerifyKey.value, svc.numVerify))
    else NotConfigured
  }

  /** The Twilio helper is called only when both SID and token are set. */
  function TwilioSource(number: string, cfg: Config, svc: Services): (src: Source<TwilioData>)
    ensures src.Configured? <==> TwilioConfigured(cfg)
    ensures src.Configured? ==> !src.reply.Raised?
    ensures src.Configured? ==>
              src.reply == CallTwilio(number, cfg.twilioSid.value, cfg.twilioToken.value, svc.twilio)
  {
    if TwilioConfigured(cfg) then Configured(CallTwilio(number, cfg.twilioSid.value, cfg.twilioToken.value, svc.twilio))
    else NotConfigured
  }

  /** `validate_number(number)` under configuration `cfg`. */
  function ValidateNumber(number: string, cfg: Config, svc: Services): (r: ValidationResult)
    ensures r.originalNumber == number
    ensures r.validLib <==> svc.library(number).Parsed? && svc.library(number).valid
    ensures NumVerifyNotConfigured in r.errors <==> !IsSet(cfg.numVerifyKey)
    ensures TwilioNotConfigured in r.errors <==> !TwilioConfigured(cfg)
    ensures !IsSet(cfg.numVerifyKey) ==> !r.validNumVerify && r.carrier == None && r.location == None
    ensures !TwilioConfigured(cfg) ==> r.lineType == None && r.fraudRisk == None && r.disposable == None
    // the Twilio helper absorbs its own failures, so its only possible
    // diagnostic is the "not configured" one
    ensures forall e :: e in r.errors && OriginOf(e) == FromTwilio ==> e == TwilioNotConfigured
    ensures TwilioConfigured(cfg) ==>
              (r.lineType.Some? <==>
                 svc.twilio(TwilioRequest(cfg.twilioSid.value, cfg.twilioToken.value, TwilioFormat(number))).Fetched?)
    ensures r.fraudRisk == None || r.fraudRisk == Some("Low")
    ensures r.disposable == None || r.disposable == Some(false)
    // a NumVerify request that failed, or whose body has its success flag
    // cleared, leaves the NumVerify fields at their defaults and adds no entry
    ensures IsSet(cfg.numVerifyKey) &&
            (var outcome := svc.numVerify(NumVerifyRequest(cfg.numVerifyKey.value, number, 1));
             outcome.RequestFailed? || (outcome.Received? && !outcome.payload.success)) ==>
              && !r.validNumVerify && r.carrier == None && r.location == None
              && FromNumVerify !in Origins(r.errors)
    // a successful NumVerify body fills validity, carrier and location
    ensures IsSet(cfg.numVerifyKey) &&
            (var outcome := svc.numVerify(NumVerifyRequest(cfg.numVerifyKey.value, number, 1));
             outcome.Received? && outcome.payload.success) ==>
              var p := svc.numVerify(NumVerifyRequest(cfg.numVerifyKey.value, number, 1)).payload;
              && r.validNumVerify == p.valid.GetOr(false)
              && r.carrier == Some(p.carrier.GetOr(Unknown))
              && r.location == Some(Location(p))
    // an exception escaping the NumVerify helper is recorded with its text
    ensures IsSet(cfg.numVerifyKey) &&
            svc.numVerify(NumVerifyRequest(cfg.numVerifyKey.value, number, 1)).Escaped? ==>
              NumVerifyErrorPrefix + svc.numVerify(NumVerifyRequest(cfg.numVerifyKey.value, number, 1)).message
                in r.errors
    // a successful Twilio lookup fills the line type and the two placeholders
    ensures TwilioConfigured(cfg) &&
            svc.twilio(TwilioRequest(cfg.twilioSid.value, cfg.twilioToken.value, TwilioFormat(number))).Fetched? ==>
              && r.lineType == Some(CarrierType(
                   svc.twilio(TwilioRequest(cfg.twilioSid.value, cfg.twilioToken.value, TwilioFormat(number))).carrier))
              && r.fraudRisk == Some("Low")
              && r.disposable == Some(false)
    // the library step alone decides the formatted number and the region
    ensures r.validLib ==>
              r.formattedNumber == Some(svc.library(number).formatted) && r.country == Some(svc.library(number).region)
    ensures !r.validLib ==> r.formattedNumber == None && r.country == None
    // a configured NumVerify call records an entry exactly when an exception
    // escaped the helper, and fills its fields only from a successful body
    ensures IsSet(cfg.numVerifyKey) ==>
              var outcome := svc.numVerify(NumVerifyRequest(cfg.numVerifyKey.value, number, 1));
              && (FromNumVerify in Origins(r.errors) <==> outcome.Escaped?)
              && (!(outcome.Received? && outcome.payload.success) ==>
                    !r.validNumVerify && r.carrier == None && r.location == None)
    // a configured Twilio lookup that fails leaves all three Twilio fields unset
    ensures TwilioConfigured(cfg) &&
            !svc.twilio(TwilioRequest(cfg.twilioSid.value, cfg.twilioToken.value, TwilioFormat(number))).Fetched? ==>
              r.lineType == None && r.fraudRisk == None && r.disposable == None
    ensures |r.errors| <= 3
  {
    var nv := NumVerifySource(number, cfg, svc);
    var tw := TwilioSource(number, cfg, svc);
    var r := Merge(number, svc.library(number), nv, tw);
    MergeNumVerifyFields(number, svc.library(number), nv, tw);
    MergeTwilioFields(number, svc.library(number), nv, tw);
    MergeErrors(number, svc.library(number), nv, tw);
    MergeRemoteDiagnostics(number, svc.library(number), nv, tw);
    r
  }
}

=== FILE: wrappers.dfy ===
/** The optional-value type used for the result record's nullable fields. */
module Wrappers {

  /** A value that may be absent (Python's `None`). */
  datatype Option<+T> = None | Some(value: T) {

    /** The value if present, otherwise `default` (Python's `dict.get(key, default)`). */
    function GetOr(default: T): T {
      match this
      case Some(v) => v
      case None => default
    }
  }
}
